=== FILE: README.md ===
# Per-user notes and bookmarks: a Dafny model of the resource access layer

This project models the backend core of a personal notes-and-bookmarks
service. Two Express routers (`backend/routes/bookmarks.js`,
`backend/routes/notes.js`) serve list, get-one, create, update and delete for
the caller's records. Two Mongoose schemas (`backend/models/Bookmark.js`,
`backend/models/Note.js`) declare the record shapes, required fields,
defaults, lower-cased tags, timestamps and text indexes.

The model is functional. Each collection is an immutable `Store.Store<F>`: a
map from record id to `Store.Doc<F>` (id, owner, kind-specific fields,
`createdAt`, `updatedAt`), plus the next fresh id and a counter standing for
the clock. Create, update and delete are pure functions from the store, the
caller's id and the request to a `Store.Reply`: the new store and a
`Common.Response` (`Ok`, `Created`, `Deleted`, `Invalid(errors)`, `NotFound`,
`ServerError`). Get-one does not change the store, so it is a pure function
returning the `Common.Response` alone. List is a method returning the
sequence of matching records.

Modules:

- `Common`: `Option`, JavaScript truthiness of optional strings, the request
  `Body`, field errors and responses.
- `Text`: JavaScript `split` on one character, `trim` and `toLowerCase`, with
  their algebra. The algebra covers split/join round trips, piece counts and
  idempotence.
- `Store`: the owner-scoped store operations both routers issue. These are
  `findOne`, `findOneAndUpdate` and `findOneAndDelete` on `{_id, user}`, plus
  `find(query).sort({createdAt: -1})`.
- `ListQuery`: the list-query builder. The code is identical in both routers,
  so it is defined once.
- `Bookmarks`, `Notes`: each schema and each router's handlers.

Collaborators enter as parameters:

- the URL syntax check is `isUrl: string -> bool`;
- the store's `$text` match is `search(indexedFieldValues, q)`;
- the outcome of fetching a page title is `page: Option<string>`.

### Behaviour of the code worth knowing

- The tag filter keeps empty pieces: `"a,,b"` filters on `""` too
  (`ListQuery.TagFilterKeepsEmptyPieces`).
- Stored tags are only lower-cased by the schema. The server neither trims
  them nor drops empty ones.
- Update applies the request body with no allow-list. A body carrying `user`
  moves the record to another owner (`Bookmarks.UpdateRewritesOwner`,
  `Notes.UpdateRewritesOwner`). Owner preservation is proved only for bodies
  without `user` (`UpdateKeepsOwner`).
- Update runs with `runValidators: true`. Mongoose checks the body's paths
  before it looks the record up. So a body that sets a required field to `""`
  gets a server error even for a missing or foreign id. This does not depend
  on which records exist, so it leaks nothing.
- Plain body fields the schema does not declare are dropped, because the
  schemas are strict. A note update ignores `url` and `description`. A
  bookmark update ignores `content`. This holds for plain fields only, not
  for update-operator keys (see "Left out").

## Model

| member | source | states |
|---|---|---|
| Text.Trim | backend/routes/bookmarks.js:31 | `trim` removes only ECMAScript white space, and only from the two ends; the result has no white space at either end |
| Text.TrimIdempotent | backend/routes/notes.js:18 | trimming a trimmed piece changes nothing |
| Text.Lower | backend/models/Bookmark.js:21-24 | `toLowerCase` and the `lowercase` setter keep the length, leave no capital, turn each capital into its small letter and leave every other character in place |
| Text.LowerFixedPoints | backend/models/Bookmark.js:21-24 | lowering leaves a string unchanged exactly when it already has no capitals |
| Text.LowerIdempotent | backend/models/Note.js:17-20 | lowering an already lowered tag changes nothing |
| Text.LowerAll | backend/models/Bookmark.js:21-24 | the `lowercase` setter on the tag array keeps its length, lowers each tag in place, and leaves every tag lower case |
| Text.LowerAllFixedPoints | backend/models/Note.js:17-20 | the setter leaves a tag array unchanged exactly when every tag is already lower case |
| Text.Split | backend/routes/bookmarks.js:31 | `split(',')` yields at least one piece, no piece holds a comma, and joining the pieces with commas gives the input back |
| Text.SplitCount | backend/routes/notes.js:18 | there is one more piece than there are commas, so empty pieces are kept |
| Text.SplitJoin | backend/routes/bookmarks.js:31 | splitting comma-free pieces joined by commas gives exactly those pieces back |
| ListQuery.NormalizeTag | backend/routes/bookmarks.js:31 | a piece after `trim().toLowerCase()` is lower case with no white space at either end |
| ListQuery.TagFilter | backend/routes/bookmarks.js:30-32 | the `$in` list has one entry per comma-separated piece, empty ones included, each trimmed and lower case |
| ListQuery.TagFilterOfPieces | backend/routes/notes.js:17-19 | the `$in` list is exactly the comma-separated pieces, each trimmed then lowered |
| ListQuery.TagFilterKeepsEmptyPieces | backend/routes/notes.js:18 | `"a,,b"` filters on exactly three tags: `a` normalised, the empty tag, and `b` normalised |
| ListQuery.TagFilterSpaceAfterComma | backend/routes/notes.js:18 | for trimmed comma-free `a` and `b`, `"a, b"` filters on exactly `a` and `b` lowered: the blank after the comma is dropped |
| ListQuery.TagFilterExample | backend/routes/bookmarks.js:31 | `"Work, urgent"` filters on exactly `work` and `urgent` |
| ListQuery.NormalizeAfterBlank | backend/routes/bookmarks.js:31 | a trimmed piece preceded by one blank normalises to the piece lowered |
| ListQuery.NormalizeTagMeaning | backend/routes/bookmarks.js:31 | the normal form of a piece is the piece with only white space removed from its two ends, then lowered |
| ListQuery.NormalizeTagIdempotent | backend/routes/bookmarks.js:31 | normalising a normalised piece changes nothing |
| ListQuery.BuildQuery | backend/routes/bookmarks.js:23-32 | the owner predicate is always the caller; the text predicate is present iff `q` is truthy, the tag predicate iff `tags` is truthy |
| ListQuery.BuiltQuerySelects | backend/routes/notes.js:10-21 | a record passes the built query iff it is the caller's, a truthy `q` matches its indexed text, and, for truthy `tags`, one of its tags is a normalised piece; absent filters impose nothing and present ones are conjoined |
| Store.FindOwned | backend/routes/bookmarks.js:44 | the lookup succeeds iff the id exists and belongs to the caller, and then returns that record |
| Store.ForeignIsMissing | backend/routes/bookmarks.js:44-47 | a record of another owner gives the same `None` as the same store without it |
| Store.GetOne | backend/routes/notes.js:31-35 | the answer is the record iff the caller owns the id, otherwise 404 |
| Store.Insert | backend/models/Bookmark.js:29 | a new record gets a fresh id, the given owner and fields, equal timestamps later than every stored one, and the store stays valid |
| Store.UpdateOwned | backend/routes/bookmarks.js:97-105 | an update changes the record only when the caller owns it: merged fields, owner from the body or kept, `createdAt` kept, `updatedAt` advanced; otherwise 404 and no change |
| Store.Delete | backend/routes/notes.js:85-91 | a record is removed iff the caller owns it, with the deletion message; otherwise 404 and no change |
| Store.Matches | backend/routes/bookmarks.js:24-34 | a record passes a query only if it is the caller's; with neither `$text` nor `$in` ownership alone decides; an empty `$in` list, or a record with no tags, fails a tag predicate |
| Store.InsertNewest | backend/routes/bookmarks.js:34 | inserting into a newest-first sequence keeps it newest-first and adds exactly that record |
| Store.List | backend/routes/bookmarks.js:34 | the result holds every record that passes the query exactly once, nothing else, ordered by `createdAt` descending |
| Bookmarks.FetchTitle | backend/routes/bookmarks.js:10-18 | the title is the fetched title text when that is non-empty, else the URL; it is never empty for a non-empty URL and has no error case |
| Bookmarks.FromBody | backend/routes/bookmarks.js:71-78 | the record built keeps the URL and title, defaults `description` to `''`, tags to `[]` and `isFavorite` to false, lowers the tags, and is well formed when URL and title are non-empty |
| Bookmarks.Create | backend/routes/bookmarks.js:55-85 | an absent or invalid URL gives the URL error and no change. Otherwise the new record is owned by the caller and keeps a truthy title, else takes the fetched title or URL. Description defaults to `''`, tags to `[]` (lowered), `isFavorite` to false. The only server error is an accepted but empty URL, which the schema rejects; then nothing is stored |
| Bookmarks.CreateSucceedsOnValidUrl | backend/routes/bookmarks.js:66-80 | if the URL check rejects `""`, a create with a valid URL always succeeds, fetch failure included |
| Bookmarks.EnrichmentOnlyWithoutTitle | backend/routes/bookmarks.js:66-69 | with a truthy title the fetch outcome does not affect the result |
| Bookmarks.CreateIgnoresBodyUser | backend/routes/bookmarks.js:64-78 | a `user` field in the body does not change the outcome |
| Bookmarks.CreateThenGet | backend/routes/bookmarks.js:42-81 | a created bookmark reads back for its creator and is 404 for anyone else |
| Bookmarks.PatchSaveable | backend/routes/bookmarks.js:100 | the update validators reject a body exactly when it sets `url` or `title` to `""`; a body touching neither always passes |
| Bookmarks.Merge | backend/routes/bookmarks.js:97-101 | every schema field the body carries replaces the stored one, with tags lowered; absent fields stay; a well-formed record stays well-formed under a saveable body |
| Bookmarks.MergeIdempotent | backend/routes/bookmarks.js:99 | applying the same body twice equals applying it once |
| Bookmarks.Update | backend/routes/bookmarks.js:88-111 | an invalid `url` gives the URL error before anything else. Success holds iff the URL is absent or valid, no required field is emptied, and the caller owns the id; 404 iff the first two hold and the caller does not own the id. The result is the merged record with owner from the body or kept, and other records unchanged. Every failure leaves the store unchanged |
| Bookmarks.UpdateForeignIsMissing | backend/routes/bookmarks.js:97-104 | updating another owner's id answers exactly as updating a missing id and changes nothing |
| Bookmarks.UpdateKeepsOwner | backend/routes/bookmarks.js:97-101 | with no `user` in the body the owner stays the caller and no other record changes |
| Bookmarks.UpdateRewritesOwner | backend/routes/bookmarks.js:99 | a body with `user` hands the bookmark to that user, after which its creator gets 404 |
| Bookmarks.GetOne | backend/routes/bookmarks.js:42-52 | the bookmark is returned iff id and owner both match, otherwise 404 |
| Bookmarks.Delete | backend/routes/bookmarks.js:114-126 | the bookmark is deleted iff id and owner both match, answering `Bookmark deleted`; otherwise 404 and no change |
| Bookmarks.DeleteTwice | backend/routes/bookmarks.js:116-122 | deleting an owned id succeeds, deleting it again gives 404 |
| Bookmarks.StoredSatisfiesSchema | backend/models/Bookmark.js:4-24 | every stored bookmark has a non-empty `url` and `title`, and lowering its tags again changes nothing |
| Bookmarks.TextSearchFields | backend/models/Bookmark.js:31 | text search sees only `title` and `description` |
| Bookmarks.List | backend/routes/bookmarks.js:21-39 | the list holds each of the caller's bookmarks that pass the built query exactly once and nothing else, every entry passing the truthy filters, newest first |
| Notes.CreateErrors | backend/routes/notes.js:42-49 | there is exactly one error per missing or empty field among `title` and `content`, the title error first, and none iff both are present and non-empty |
| Notes.FromSpread | backend/routes/notes.js:52-55 | `user` written after the spread makes the caller the owner whatever the body says; the note built is well formed |
| Notes.Create | backend/routes/notes.js:42-61 | a missing title or content gives all field errors and no change; otherwise the new note is owned by the caller with the body's title, content, lowered tags (default `[]`) and `isFavorite` (default false) |
| Notes.CreateIgnoresBodyUser | backend/routes/notes.js:52-55 | a `user` field in the body does not change the outcome |
| Notes.CreateThenGet | backend/routes/notes.js:29-61 | creating `{title: A, content: B, tags: [X, Y]}` reads back as `A`, `B`, `[x, y]`, not favorite, for the creator only |
| Notes.PatchSaveable | backend/routes/notes.js:69 | the update validators reject a body exactly when it sets `title` or `content` to `""`; a body touching neither always passes |
| Notes.Merge | backend/routes/notes.js:66-70 | every note field the body carries replaces the stored one, with tags lowered; absent fields stay; well-formedness is kept under a saveable body |
| Notes.Update | backend/routes/notes.js:64-80 | the outcomes are only the updated note, 404, or a server error for an emptied required field. Success holds iff no required field is emptied and the caller owns the id; 404 iff no required field is emptied and the caller does not own the id. Other records and failures leave the store unchanged |
| Notes.UpdateForeignIsMissing | backend/routes/notes.js:66-73 | updating another owner's id answers exactly as updating a missing id and changes nothing |
| Notes.UpdateKeepsOwner | backend/routes/notes.js:66-70 | with no `user` in the body the owner stays the caller and no other record changes |
| Notes.UpdateFavoriteOnly | backend/routes/notes.js:66-70 | a body with only `isFavorite` changes that flag and `updatedAt`, nothing else |
| Notes.UpdateRewritesOwner | backend/routes/notes.js:68 | a body with `user` hands the note to that user, after which its creator gets 404 |
| Notes.GetOne | backend/routes/notes.js:29-39 | the note is returned iff id and owner both match, otherwise 404 |
| Notes.Delete | backend/routes/notes.js:83-95 | the note is deleted iff id and owner both match, answering `Note deleted`; otherwise 404 and no change |
| Notes.DeleteTwice | backend/routes/notes.js:85-91 | deleting an owned id succeeds, deleting it again gives 404 |
| Notes.StoredSatisfiesSchema | backend/models/Note.js:4-20 | every stored note has a non-empty `title` and `content`, and lowering its tags again changes nothing |
| Notes.TextSearchFields | backend/models/Note.js:27 | text search sees only `title` and `content` |
| Notes.List | backend/routes/notes.js:8-26 | the list holds each of the caller's notes that pass the built query exactly once and nothing else, every entry passing the truthy filters, newest first |

## Left out

- The network fetch and HTML parsing inside `fetchTitle` (axios with a
  5-second timeout, cheerio). Their outcome is the `page` parameter.
- The syntax of `isURL`. It is the `isUrl` parameter. Only one lemma assumes
  anything about it: `CreateSucceedsOnValidUrl` assumes it rejects `""`.
- MongoDB `$text` tokenisation, stemming and ranking. These are the `search`
  parameter, applied to the indexed field values.
- Express and HTTP plumbing and the authentication middleware. The caller's
  id is a parameter.
- Store faults such as connectivity loss. The model's `ServerError` covers
  only rejections by the schema's validators.
- Casting a malformed `:id` or a malformed `user` value to an ObjectId (a
  500 in the code). Record ids are natural numbers and user ids are strings.
- JSON values of a type other than the field's own. Examples are a numeric
  title, `null` in an update body, and `q` or `tags` given as arrays.
- Notes.Create: does not model a client-supplied `_id`, `createdAt` or
  `updatedAt`. The handler spreads the body into the new note, so these
  fields survive there: a client could choose the note's id (a duplicate id
  is a 500) or backdate it. The model always assigns a fresh id and the
  current tick. Bookmark create reads only its listed fields, so it is
  unaffected.
- Bookmarks.Update: bodies with update-operator keys (`$set`, `$unset`,
  `$push`, `$rename`, …) are outside the model. The handler passes the body
  unchanged to `findOneAndUpdate`, so Mongoose would apply such keys as
  operators, and schema strictness does not drop them. Update validators do
  not run for `$rename`. The `Stored` invariant, and so
  `Bookmarks.StoredSatisfiesSchema`, is proved for plain-field bodies only,
  and so is ownership after an update.
- Notes.Update: the same holds for note update bodies with update-operator
  keys. `Notes.StoredSatisfiesSchema` and ownership after an update are
  proved for plain-field bodies only.
- `_id`, `createdAt` and `updatedAt` in an update body. The model's `Body`
  has no such fields.
- Wall-clock timestamps. The store's clock is a counter advanced by every
  create and update.
- Concurrent requests and last-write-wins races between them.
- The React pages, the auth context, the axios wrappers and the layout
  components. They are UI code outside the access layer, and that includes
  the client's own tag splitting.
- Text.Lower: lowers the ASCII letters `A`-`Z` only. JavaScript
  `toLowerCase` also maps non-ASCII capitals.

=== FILE: bookmarks.dfy ===
/** The bookmark schema and the bookmark route handlers: list, get one,
    create (URL validation, title enrichment, defaults, forced owner), update
    (optional URL check, owner-scoped merge) and delete. */
module Bookmarks {
  import opened Common
  import opened Text
  import Store
  import ListQuery

  /** The schema's own fields; `user`, `_id` and the timestamps live in `Store.Doc`. */
  datatype Bookmark = Bookmark(url: string, title: string, description: string, tags: seq<string>, isFavorite: bool)

  const UrlMessage := "Valid URL is required"
  const DeletedMessage := "Bookmark deleted"

  function UrlError(): FieldError {
    FieldError("url", UrlMessage)
  }

  function TagsOf(b: Bookmark): seq<string> {
    b.tags
  }

  /** The fields of the text index. */
  function Indexed(b: Bookmark): seq<string> {
    [b.title, b.description]
  }

  /** The schema's `required` validators: `url` and `title` are non-empty
      strings (`user` is always supplied by the handlers). */
  predicate Saveable(b: Bookmark) {
    b.url != "" && b.title != ""
  }

  /** What every stored bookmark satisfies: saveable, and tags lower case. */
  predicate WellFormed(b: Bookmark) {
    Saveable(b) && AllLower(b.tags)
  }

  predicate Stored(s: Store.Store<Bookmark>) {
    Store.Valid(s) && forall id :: id in s.docs ==> WellFormed(s.docs[id].fields)
  }

  /** `fetchTitle(url)`. `page` is the outcome of fetching and parsing the page:
      the text of its `title` elements, or `None` for any failure (timeout,
      network error, bad status, unparsable content). The result is a plain
      string: enrichment has no error channel. */
  function FetchTitle(url: string, page: Option<string>): (r: string)
    ensures Truthy(page) ==> r == page.value
    ensures !Truthy(page) ==> r == url
    ensures url != "" ==> r != ""
  {
    match page
    case Some(text) => if text != "" then text else url
    case None => url
  }

  /** The create route's `body('url').isURL()`: present and a URL. `isUrl` is
      the validator's syntax check, left uninterpreted. */
  predicate UrlPresentAndValid(body: Body, isUrl: string -> bool) {
    body.url.Some? && isUrl(body.url.value)
  }

  /** The record the create handler builds from the request body once the URL
      passed: defaults for the optional fields, tags lowered by the schema. */
  function FromBody(body: Body, url: string, title: string): (r: Bookmark)
    ensures r.url == url && r.title == title
    ensures r.description == (if body.description.Some? then body.description.value else "")
    ensures r.tags == (if body.tags.Some? then LowerAll(body.tags.value) else [])
    ensures r.isFavorite <==> body.isFavorite == Some(true)
    ensures url != "" && title != "" ==> WellFormed(r)
  {
    Bookmark(url, title, body.description.GetOr(""), LowerAll(body.tags.GetOr([])), body.isFavorite.GetOr(false))
  }

  /** POST /bookmarks by `caller`. */
  function Create(s: Store.Store<Bookmark>, caller: UserId, body: Body, isUrl: string -> bool,
                  page: Option<string>): (r: Store.Reply<Bookmark>)
    requires Stored(s)
    ensures Stored(r.store)
    ensures r.response.Created? || r.response.Invalid? || r.response.ServerError?
    ensures r.response.Invalid? <==> !UrlPresentAndValid(body, isUrl)
    ensures r.response.Invalid? ==> r.response.errors == [UrlError()]
    ensures r.response.ServerError? <==> UrlPresentAndValid(body, isUrl) && body.url.value == ""
    ensures !r.response.Created? ==> r.store == s
    ensures r.response.Created? ==>
      var d := r.response.value;
      && d.owner == caller
      && d.id !in s.docs
      && r.store.docs == s.docs[d.id := d]
      && d.fields.url == body.url.value
      && (Truthy(body.title) ==> d.fields.title == body.title.value)
      && (!Truthy(body.title) ==> d.fields.title == FetchTitle(body.url.value, page))
      && d.fields.description == (if body.description.Some? then body.description.value else "")
      && d.fields.tags == (if body.tags.Some? then LowerAll(body.tags.value) else [])
      && d.fields.isFavorite == (body.isFavorite == Some(true))
  {
    if !UrlPresentAndValid(body, isUrl) then Store.Reply(s, Invalid([UrlError()]))
    else
      var url := body.url.value;
      var title := if Truthy(body.title) then body.title.value else FetchTitle(url, page);
      var b := FromBody(body, url, title);
      if !Saveable(b) then Store.Reply(s, ServerError)
      else
        var (s', d) := Store.Insert(s, caller, b);
        Store.Reply(s', Created(d))
  }

  /** When the URL validator rejects the empty string, a create with a valid
      URL always succeeds: the title is never empty, fetched or not. */
  lemma CreateSucceedsOnValidUrl(s: Store.Store<Bookmark>, caller: UserId, body: Body,
                                 isUrl: string -> bool, page: Option<string>)
    requires Stored(s)
    requires !isUrl("")
    requires UrlPresentAndValid(body, isUrl)
    ensures Create(s, caller, body, isUrl, page).response.Created?
  {
    assert body.url.value != "";
  }

  /** The fetch outcome matters only when the supplied title is falsy. */
  lemma EnrichmentOnlyWithoutTitle(s: Store.Store<Bookmark>, caller: UserId, body: Body,
                                   isUrl: string -> bool, page1: Option<string>, page2: Option<string>)
    requires Stored(s)
    requires Truthy(body.title)
    ensures Create(s, caller, body, isUrl, page1) == Create(s, caller, body, isUrl, page2)
  {
  }

  /** A `user` field in the body has no effect: only the listed fields are read
      and the owner is always the caller. */
  lemma CreateIgnoresBodyUser(s: Store.Store<Bookmark>, caller: UserId, body: Body, other: UserId,
                              isUrl: string -> bool, page: Option<string>)
    requires Stored(s)
    ensures Create(s, caller, body.(user := Some(other)), isUrl, page) == Create(s, caller, body, isUrl, page)
  {
  }

  /** A created bookmark can be read back by its creator, and by nobody else. */
  lemma CreateThenGet(s: Store.Store<Bookmark>, caller: UserId, other: UserId, body: Body,
                      isUrl: string -> bool, page: Option<string>)
    requires Stored(s)
    requires Create(s, caller, body, isUrl, page).response.Created?
    requires other != caller
    ensures var r := Create(s, caller, body, isUrl, page);
      && GetOne(r.store, r.response.value.id, caller) == Ok(r.response.value)
      && GetOne(r.store, r.response.value.id, other) == NotFound
  {
  }

  /** The update route's `body('url').optional().isURL()`. */
  predicate UrlAbsentOrValid(body: Body, isUrl: string -> bool) {
    body.url.None? || isUrl(body.url.value)
  }

  /** The update validators (`runValidators: true`) on the paths the body sets:
      a required field may not be set to the empty string. They run before the
      lookup. */
  function PatchSaveable(body: Body): (r: bool)
    ensures r <==> body.url != Some("") && body.title != Some("")
    ensures body.url.None? && body.title.None? ==> r
  {
    (body.url.None? || body.url.value != "") && (body.title.None? || body.title.value != "")
  }

  /** The body applied to a stored bookmark: every schema field it carries
      replaces the stored one (tags lowered by the schema), the others stay;
      fields the schema does not declare are dropped. */
  function Merge(b: Bookmark, body: Body): (r: Bookmark)
    ensures body.url.Some? ==> r.url == body.url.value
    ensures body.title.Some? ==> r.title == body.title.value
    ensures body.description.Some? ==> r.description == body.description.value
    ensures body.tags.Some? ==> r.tags == LowerAll(body.tags.value)
    ensures body.isFavorite.Some? ==> r.isFavorite == body.isFavorite.value
    ensures body.url.None? ==> r.url == b.url
    ensures body.title.None? ==> r.title == b.title
    ensures body.description.None? ==> r.description == b.description
    ensures body.tags.None? ==> r.tags == b.tags
    ensures body.isFavorite.None? ==> r.isFavorite == b.isFavorite
    ensures WellFormed(b) && PatchSaveable(body) ==> WellFormed(r)
  {
    Bookmark(
      body.url.GetOr(b.url),
      body.title.GetOr(b.title),
      body.description.GetOr(b.description),
      if body.tags.Some? then LowerAll(body.tags.value) else b.tags,
      body.isFavorite.GetOr(b.isFavorite))
  }

  /** Applying the same body twice gives what applying it once gave. */
  lemma MergeIdempotent(b: Bookmark, body: Body)
    ensures Merge(Merge(b, body), body) == Merge(b, body)
  {
    if body.tags.Some? {
      LowerAllFixedPoints(LowerAll(body.tags.value));
    }
  }

  /** PUT /bookmarks/:id by `caller`. */
  function Update(s: Store.Store<Bookmark>, id: RecordId, caller: UserId, body: Body,
                  isUrl: string -> bool): (r: Store.Reply<Bookmark>)
    requires Stored(s)
    ensures Stored(r.store)
    ensures r.response.Ok? || r.response.Invalid? || r.response.NotFound? || r.response.ServerError?
    ensures r.response.Invalid? <==> !UrlAbsentOrValid(body, isUrl)
    ensures r.response.Invalid? ==> r.response.errors == [UrlError()]
    ensures !r.response.Ok? ==> r.store == s
    ensures r.response.Ok? <==> UrlAbsentOrValid(body, isUrl) && PatchSaveable(body) && Store.Owns(s, id, caller)
    ensures r.response.NotFound? <==> UrlAbsentOrValid(body, isUrl) && PatchSaveable(body) && !Store.Owns(s, id, caller)
    ensures r.response.Ok? ==>
      var d := r.response.value;
      && d.id == id
      && d.owner == body.user.GetOr(caller)
      && d.fields == Merge(s.docs[id].fields, body)
      && d.createdAt == s.docs[id].createdAt
      && d.updatedAt > s.docs[id].updatedAt
      && r.store.docs == s.docs[id := d]
  {
    if !UrlAbsentOrValid(body, isUrl) then Store.Reply(s, Invalid([UrlError()]))
    else if !PatchSaveable(body) then Store.Reply(s, ServerError)
    else Store.UpdateOwned(s, id, caller, body.user, b => Merge(b, body))
  }

  /** An update of someone else's bookmark answers exactly as an update of a
      missing one, and changes nothing. */
  lemma UpdateForeignIsMissing(s: Store.Store<Bookmark>, id: RecordId, caller: UserId, body: Body,
                               isUrl: string -> bool)
    requires Stored(s)
    requires id in s.docs && s.docs[id].owner != caller
    ensures Update(s, id, caller, body, isUrl).response == Update(Store.Without(s, id), id, caller, body, isUrl).response
    ensures Update(s, id, caller, body, isUrl).store == s
  {
  }

  /** Without a `user` field in the body an update keeps the owner, and it
      touches no other record. */
  lemma UpdateKeepsOwner(s: Store.Store<Bookmark>, id: RecordId, caller: UserId, body: Body,
                         isUrl: string -> bool)
    requires Stored(s)
    requires body.user.None?
    requires Update(s, id, caller, body, isUrl).response.Ok?
    ensures Update(s, id, caller, body, isUrl).response.value.owner == caller == s.docs[id].owner
    ensures forall k :: k in s.docs && k != id ==> Update(s, id, caller, body, isUrl).store.docs[k] == s.docs[k]
  {
  }

  /** The body is applied without an allow-list, so a `user` field moves the
      bookmark to another owner, after which its creator gets 404. */
  lemma UpdateRewritesOwner()
    ensures
      var b := Bookmark("http://a.example", "A", "", [], false);
      var s := Store.Store(map[0 := Store.Doc(0, "alice", b, 0, 0)], 1, 1);
      var body := EmptyBody().(user := Some("bob"));
      var r := Update(s, 0, "alice", body, u => u != "");
      && r.response.Ok? && r.response.value.owner == "bob"
      && GetOne(r.store, 0, "alice") == NotFound
      && GetOne(r.store, 0, "bob").Ok?
  {
  }

  /** Deleting the same identifier twice: the first call succeeds, the second
      finds nothing. */
  lemma DeleteTwice(s: Store.Store<Bookmark>, id: RecordId, caller: UserId)
    requires Stored(s)
    requires Store.Owns(s, id, caller)
    ensures Delete(s, id, caller).response == Deleted(DeletedMessage)
    ensures Delete(Delete(s, id, caller).store, id, caller).response == NotFound
  {
  }

  /** Every stored record satisfies the schema: its required fields are
      non-empty and its tags are lower case, so lowering them again changes
      nothing. */
  lemma StoredSatisfiesSchema(s: Store.Store<Bookmark>, id: RecordId)
    requires Stored(s)
    requires id in s.docs
    ensures s.docs[id].fields.url != "" && s.docs[id].fields.title != ""
    ensures LowerAll(s.docs[id].fields.tags) == s.docs[id].fields.tags
  {
    LowerAllFixedPoints(s.docs[id].fields.tags);
  }

  /** Text search sees the title and the description only: records that agree on those,
      on their owner and on their tags satisfy the same queries. */
  lemma TextSearchFields(q: Store.Query, d1: Store.Doc<Bookmark>, d2: Store.Doc<Bookmark>,
                         search: (seq<string>, string) -> bool)
    requires d1.owner == d2.owner && d1.fields.tags == d2.fields.tags
    requires Indexed(d1.fields) == Indexed(d2.fields)
    ensures Store.Matches(q, d1, TagsOf, Indexed, search) == Store.Matches(q, d2, TagsOf, Indexed, search)
  {
  }

  /** GET /bookmarks/:id by `caller`. */
  function GetOne(s: Store.Store<Bookmark>, id: RecordId, caller: UserId): (r: Response<Store.Doc<Bookmark>>)
    ensures r.Ok? || r.NotFound?
    ensures r.Ok? <==> Store.Owns(s, id, caller)
    ensures r.Ok? ==> r.value == s.docs[id] && r.value.owner == caller
  {
    Store.GetOne(s, id, caller)
  }

  /** DELETE /bookmarks/:id by `caller`. */
  function Delete(s: Store.Store<Bookmark>, id: RecordId, caller: UserId): (r: Store.Reply<Bookmark>)
    requires Stored(s)
    ensures Stored(r.store)
    ensures r.response.Deleted? || r.response.NotFound?
    ensures r.response.Deleted? <==> Store.Owns(s, id, caller)
    ensures r.response.Deleted? ==> r.response.message == DeletedMessage && r.store.docs == s.docs - {id}
    ensures r.response.NotFound? ==> r.store == s
  {
    Store.Delete(s, id, caller, DeletedMessage)
  }

  /** GET /bookmarks?q=…&tags=… by `caller`: exactly the caller's bookmarks that
      pass the optional text and tag predicates, newest first. `search` is the
      store's text match over the indexed fields. */
  method List(s: Store.Store<Bookmark>, caller: UserId, q: Option<string>, tags: Option<string>,
              search: (seq<string>, string) -> bool) returns (r: seq<Store.Doc<Bookmark>>)
    requires Store.Valid(s)
    ensures Store.NewestFirst(r)
    ensures multiset(r) ==
      multiset(Store.Selected(s, s.docs.Keys, ListQuery.BuildQuery(caller, q, tags), TagsOf, Indexed, search))
    ensures forall d :: d in r ==> d.owner == caller && d.id in s.docs && s.docs[d.id] == d
    ensures forall d :: d in r ==> Truthy(q) ==> search([d.fields.title, d.fields.description], q.value)
    ensures forall d :: d in r ==> Truthy(tags) ==>
      exists t :: t in d.fields.tags && t in ListQuery.TagFilter(tags.value)
    ensures forall id ::
              id in s.docs && Store.Matches(ListQuery.BuildQuery(caller, q, tags), s.docs[id], TagsOf, Indexed, search)
              ==> s.docs[id] in r
  {
    var query := ListQuery.BuildQuery(caller, q, tags);
    r := Store.List(s, query, TagsOf, Indexed, search);
  }
}

=== FILE: common.dfy ===
/** Values shared by both resource handlers: optional request fields, the
    request body, field-level validation errors and the handler outcomes. */
module Common {

  /** An optional value: a request field that is absent (`None`) or present. */
  datatype Option<+T> = None | Some(value: T) {

    /** The value when present, otherwise `default` (JavaScript `x || default`
        and Mongoose schema defaults agree on every input the model admits). */
    function GetOr(default: T): T {
      match this
      case Some(v) => v
      case None => default
    }
  }

  /** JavaScript truthiness of an optional string: present and non-empty. */
  predicate Truthy(o: Option<string>) {
    o.Some? && o.value != ""
  }

  /** The verified caller identity produced by the authentication middleware. */
  type UserId = string

  /** A record identifier assigned by the store. */
  type RecordId = nat

  /** One entry of the `errors` array of a 400 response. */
  datatype FieldError = FieldError(field: string, message: string)

  /** The JSON request body of a create or update, as plain fields: every
      schema field of either record kind may be present, and a plain field the
      schema does not declare is dropped by the store. Update-operator keys
      (`$set`, `$push`, `$rename`, …) are not represented. */
  datatype Body = Body(
    user: Option<UserId>,
    url: Option<string>,
    title: Option<string>,
    description: Option<string>,
    content: Option<string>,
    tags: Option<seq<string>>,
    isFavorite: Option<bool>)

  /** The body with no field present. */
  function EmptyBody(): Body {
    Body(None, None, None, None, None, None, None)
  }

  /** What a route handler answers: 200 with a value, 201 with the created
      record, 200 with a deletion message, 400 with field errors, 404, or 500. */
  datatype Response<+T> =
    | Ok(value: T)
    | Created(value: T)
    | Deleted(message: string)
    | Invalid(errors: seq<FieldError>)
    | NotFound
    | ServerError
}

=== FILE: list_query.dfy ===
/** The list-query builder, written identically in both route files: the
    owner predicate always, `$text` when `q` is truthy, and `tags: {$in: …}`
    when `tags` is truthy, built from the comma-separated pieces. */
module ListQuery {
  import opened Common
  import opened Text
  import Store

  /** One piece of the tag parameter, as `t.trim().toLowerCase()` leaves it. */
  function NormalizeTag(p: string): (r: string)
    ensures IsLower(r) && IsTrimmed(r)
  {
    LowerKeepsTrimmed(Trim(p));
    Lower(Trim(p))
  }

  /** Every piece normalised, in order. */
  function NormalizeEach(ps: seq<string>): (r: seq<string>)
    ensures |r| == |ps|
    ensures forall i :: 0 <= i < |ps| ==> r[i] == NormalizeTag(ps[i])
  {
    seq(|ps|, i requires 0 <= i < |ps| => NormalizeTag(ps[i]))
  }

  /** `tags.split(',').map(t => t.trim().toLowerCase())`: one entry per piece,
      empty pieces included, each trimmed and lower case. */
  function TagFilter(tags: string): (r: seq<string>)
    ensures |r| == Count(tags, ',') + 1
    ensures forall i :: 0 <= i < |r| ==> IsLower(r[i]) && IsTrimmed(r[i])
  {
    SplitCount(tags, ',');
    NormalizeEach(Split(tags, ','))
  }

  /** The query for a list request by `caller` with query parameters `q` and
      `tags` (each absent or a string). */
  function BuildQuery(caller: UserId, q: Option<string>, tags: Option<string>): (r: Store.Query)
    ensures r.owner == caller
    ensures r.text.Some? <==> Truthy(q)
    ensures r.tags.Some? <==> Truthy(tags)
  {
    Store.Query(
      caller,
      if Truthy(q) then q else None,
      if Truthy(tags) then Some(TagFilter(tags.value)) else None)
  }

  /** The filter set is exactly the comma-separated pieces, each normalised:
      for pieces without a comma, joining them and building the filter gives
      the normalised pieces back. */
  lemma TagFilterOfPieces(ps: seq<string>)
    requires |ps| >= 1
    requires forall i :: 0 <= i < |ps| ==> ',' !in ps[i]
    ensures TagFilter(Join(ps, ',')) == NormalizeEach(ps)
  {
    SplitJoin(ps, ',');
  }

  /** A piece that is already trimmed and lower case is its own normal form. */
  lemma NormalizeNormal(t: string)
    requires IsTrimmed(t) && IsLower(t)
    ensures NormalizeTag(t) == t
  {
    TrimOfTrimmed(t);
    LowerFixedPoints(t);
  }

  /** Empty pieces are not dropped: two adjacent commas put the empty tag in
      the filter. */
  lemma TagFilterKeepsEmptyPieces(a: string, b: string)
    requires ',' !in a && ',' !in b
    ensures var r := TagFilter(a + ",," + b);
      |r| == 3 && r[0] == NormalizeTag(a) && r[1] == "" && r[2] == NormalizeTag(b)
  {
    var ps := [a, "", b];
    assert ps[1..] == ["", b] && ps[1..][1..] == [b];
    assert Join(["", b], ',') == "," + b;
    assert Join(ps, ',') == a + ",," + b;
    TagFilterOfPieces(ps);
    NormalizeNormal("");
  }

  /** A piece with one leading blank normalises like the piece itself. */
  lemma NormalizeAfterBlank(b: string)
    requires IsTrimmed(b)
    ensures NormalizeTag(" " + b) == Lower(b)
  {
    var b' := " " + b;
    assert b'[1..] == b;
    TrimOfTrimmed(b);
    assert TrimStart(b') == TrimStart(b);
  }

  /** White space after a comma is ignored and capitals are folded. */
  lemma TagFilterSpaceAfterComma(a: string, b: string)
    requires ',' !in a && ',' !in b
    requires IsTrimmed(a) && IsTrimmed(b)
    ensures var r := TagFilter(a + ", " + b);
      |r| == 2 && r[0] == Lower(a) && r[1] == Lower(b)
  {
    var ps := [a, " " + b];
    assert ps[1..] == [" " + b];
    assert Join(ps, ',') == a + ", " + b;
    TagFilterOfPieces(ps);
    TrimOfTrimmed(a);
    NormalizeAfterBlank(b);
  }

  /** `tags=Work, urgent` filters on `work` and `urgent`. */
  lemma TagFilterExample()
    ensures var r := TagFilter("Work, urgent");
      |r| == 2 && r[0] == "work" && r[1] == "urgent"
  {
    ExamplePieces();
    TagFilterSpaceAfterComma("Work", "urgent");
  }

  /** The words of the example: how the parameter splits, and what lowering
      does to each word. */
  lemma ExamplePieces()
    ensures "Work" + ", " + "urgent" == "Work, urgent"
    ensures IsTrimmed("Work") && IsTrimmed("urgent")
    ensures Lower("Work") == "work" && Lower("urgent") == "urgent"
  {
    assert IsLower("urgent");
    LowerFixedPoints("urgent");
  }

  /** The normal form of a piece is the piece with the white space at its two
      ends removed, then lowered. */
  lemma NormalizeTagMeaning(p: string)
    ensures var r := NormalizeTag(p);
      exists i :: 0 <= i && i + |r| <= |p| && r == Lower(p[i..i + |r|]) && AllSpace(p[..i]) && AllSpace(p[i + |r|..])
  {
    var i :| StripsTo(p, Trim(p), i);
    NormalizeAt(p, i);
  }

  /** The same, at the offset where trimming cut the piece. */
  lemma NormalizeAt(p: string, i: int)
    requires StripsTo(p, Trim(p), i)
    ensures var r := NormalizeTag(p);
      0 <= i && i + |r| <= |p| && r == Lower(p[i..i + |r|]) && AllSpace(p[..i]) && AllSpace(p[i + |r|..])
  {
    var t := Trim(p);
    assert NormalizeTag(p) == Lower(t) && |Lower(t)| == |t|;
  }

  /** Normalising a normalised filter changes nothing. */
  lemma NormalizeTagIdempotent(p: string)
    ensures NormalizeTag(NormalizeTag(p)) == NormalizeTag(p)
  {
    var t := NormalizeTag(p);
    TrimOfTrimmed(t);
    LowerFixedPoints(t);
  }

  /** How the built query selects: the owner must be the caller whatever the
      parameters; an absent or empty parameter imposes no constraint; present
      parameters are conjoined; the tag predicate holds iff some tag of the
      record is one of the normalised pieces. */
  lemma BuiltQuerySelects<F>(caller: UserId, q: Option<string>, tags: Option<string>, d: Store.Doc<F>,
                             tagsOf: F -> seq<string>, indexed: F -> seq<string>,
                             search: (seq<string>, string) -> bool)
    ensures Store.Matches(BuildQuery(caller, q, tags), d, tagsOf, indexed, search) <==>
      && d.owner == caller
      && (Truthy(q) ==> search(indexed(d.fields), q.value))
      && (Truthy(tags) ==> exists t :: t in tagsOf(d.fields) && t in TagFilter(tags.value))
  {
  }
}

=== FILE: notes.dfy ===
/** The note schema and the note route handlers: list, get one, create
    (title/content validation, body spread then owner), update (owner-scoped
    merge with no route validation) and delete. */
module Notes {
  import opened Common
  import opened Text
  import Store
  import ListQuery

  /** The schema's own fields; `user`, `_id` and the timestamps live in `Store.Doc`. */
  datatype Note = Note(title: string, content: string, tags: seq<string>, isFavorite: bool)

  const TitleMessage := "Title is required"
  const ContentMessage := "Content is required"
  const DeletedMessage := "Note deleted"

  function TagsOf(n: Note): seq<string> {
    n.tags
  }

  /** The fields of the text index. */
  function Indexed(n: Note): seq<string> {
    [n.title, n.content]
  }

  /** What every stored note satisfies: the schema's `required` title and
      content are non-empty, and tags are lower case. */
  predicate WellFormed(n: Note) {
    n.title != "" && n.content != "" && AllLower(n.tags)
  }

  predicate Stored(s: Store.Store<Note>) {
    Store.Valid(s) && forall id :: id in s.docs ==> WellFormed(s.docs[id].fields)
  }

  /** The create route's validators, in declaration order: one error for each
      of `title` and `content` that is missing or empty. */
  function CreateErrors(body: Body): (r: seq<FieldError>)
    ensures r == [] <==> Truthy(body.title) && Truthy(body.content)
    ensures FieldError("title", TitleMessage) in r <==> !Truthy(body.title)
    ensures FieldError("content", ContentMessage) in r <==> !Truthy(body.content)
    ensures forall e :: e in r ==> e.field in {"title", "content"}
    ensures |r| == (if Truthy(body.title) then 0 else 1) + (if Truthy(body.content) then 0 else 1)
    ensures !Truthy(body.title) ==> r[0] == FieldError("title", TitleMessage)
  {
    (if Truthy(body.title) then [] else [FieldError("title", TitleMessage)])
    + (if Truthy(body.content) then [] else [FieldError("content", ContentMessage)])
  }

  /** `new Note({...req.body, user: req.userId})`: the spread body with `user`
      written last, then the schema defaults and the tag setter. */
  function FromSpread(body: Body, caller: UserId): (r: (UserId, Note))
    requires Truthy(body.title) && Truthy(body.content)
    ensures r.0 == caller
    ensures WellFormed(r.1)
  {
    var spread := body.(user := Some(caller));
    (spread.user.value,
     Note(spread.title.value, spread.content.value, LowerAll(spread.tags.GetOr([])), spread.isFavorite.GetOr(false)))
  }

  /** POST /notes by `caller`. */
  function Create(s: Store.Store<Note>, caller: UserId, body: Body): (r: Store.Reply<Note>)
    requires Stored(s)
    ensures Stored(r.store)
    ensures r.response.Created? || r.response.Invalid?
    ensures r.response.Invalid? <==> !(Truthy(body.title) && Truthy(body.content))
    ensures r.response.Invalid? ==> r.store == s && r.response.errors == CreateErrors(body)
    ensures r.response.Created? ==>
      var d := r.response.value;
      && d.owner == caller
      && d.id !in s.docs
      && r.store.docs == s.docs[d.id := d]
      && d.fields.title == body.title.value
      && d.fields.content == body.content.value
      && d.fields.tags == (if body.tags.Some? then LowerAll(body.tags.value) else [])
      && d.fields.isFavorite == (body.isFavorite == Some(true))
  {
    var errors := CreateErrors(body);
    if errors != [] then Store.Reply(s, Invalid(errors))
    else
      var (owner, n) := FromSpread(body, caller);
      var (s', d) := Store.Insert(s, owner, n);
      Store.Reply(s', Created(d))
  }

  /** Whatever `user` the body carries, the created note belongs to the caller. */
  lemma CreateIgnoresBodyUser(s: Store.Store<Note>, caller: UserId, body: Body, other: UserId)
    requires Stored(s)
    ensures Create(s, caller, body.(user := Some(other))) == Create(s, caller, body)
  {
  }

  /** A created note reads back with its tags lowered and `isFavorite` false by
      default, for its creator only. */
  lemma CreateThenGet(s: Store.Store<Note>, caller: UserId, other: UserId)
    requires Stored(s)
    requires other != caller
    ensures
      var body := EmptyBody().(title := Some("A"), content := Some("B"), tags := Some(["X", "Y"]));
      var r := Create(s, caller, body);
      && r.response.Created?
      && GetOne(r.store, r.response.value.id, caller) == Ok(r.response.value)
      && r.response.value.fields == Note("A", "B", ["x", "y"], false)
      && GetOne(r.store, r.response.value.id, other) == NotFound
  {
    assert Lower("X") == "x";
    assert Lower("Y") == "y";
  }

  /** The update validators on the paths the body sets: a required field may not
      be set to the empty string. They run before the lookup. */
  function PatchSaveable(body: Body): (r: bool)
    ensures r <==> body.title != Some("") && body.content != Some("")
    ensures body.title.None? && body.content.None? ==> r
  {
    (body.title.None? || body.title.value != "") && (body.content.None? || body.content.value != "")
  }

  /** The body applied to a stored note: every note field it carries replaces
      the stored one (tags lowered), the others stay; bookmark-only fields are
      dropped by the schema. */
  function Merge(n: Note, body: Body): (r: Note)
    ensures body.title.Some? ==> r.title == body.title.value
    ensures body.content.Some? ==> r.content == body.content.value
    ensures body.tags.Some? ==> r.tags == LowerAll(body.tags.value)
    ensures body.isFavorite.Some? ==> r.isFavorite == body.isFavorite.value
    ensures body.title.None? ==> r.title == n.title
    ensures body.content.None? ==> r.content == n.content
    ensures body.tags.None? ==> r.tags == n.tags
    ensures body.isFavorite.None? ==> r.isFavorite == n.isFavorite
    ensures WellFormed(n) && PatchSaveable(body) ==> WellFormed(r)
  {
    Note(
      body.title.GetOr(n.title),
      body.content.GetOr(n.content),
      if body.tags.Some? then LowerAll(body.tags.value) else n.tags,
      body.isFavorite.GetOr(n.isFavorite))
  }

  /** PUT /notes/:id by `caller`. There is no route validation, so the outcomes
      are the updated note, 404, or the store's rejection of an emptied
      required field. */
  function Update(s: Store.Store<Note>, id: RecordId, caller: UserId, body: Body): (r: Store.Reply<Note>)
    requires Stored(s)
    ensures Stored(r.store)
    ensures r.response.Ok? || r.response.NotFound? || r.response.ServerError?
    ensures !r.response.Ok? ==> r.store == s
    ensures r.response.Ok? <==> PatchSaveable(body) && Store.Owns(s, id, caller)
    ensures r.response.NotFound? <==> PatchSaveable(body) && !Store.Owns(s, id, caller)
    ensures r.response.Ok? ==>
      var d := r.response.value;
      && d.id == id
      && d.owner == body.user.GetOr(caller)
      && d.fields == Merge(s.docs[id].fields, body)
      && d.createdAt == s.docs[id].createdAt
      && d.updatedAt > s.docs[id].updatedAt
      && r.store.docs == s.docs[id := d]
  {
    if !PatchSaveable(body) then Store.Reply(s, ServerError)
    else Store.UpdateOwned(s, id, caller, body.user, n => Merge(n, body))
  }

  /** An update of someone else's note answers exactly as an update of a
      missing one, and changes nothing. */
  lemma UpdateForeignIsMissing(s: Store.Store<Note>, id: RecordId, caller: UserId, body: Body)
    requires Stored(s)
    requires id in s.docs && s.docs[id].owner != caller
    ensures Update(s, id, caller, body).response == Update(Store.Without(s, id), id, caller, body).response
    ensures Update(s, id, caller, body).store == s
  {
  }

  /** Without a `user` field in the body an update keeps the owner, changes
      only the fields the body carries, and touches no other record. */
  lemma UpdateKeepsOwner(s: Store.Store<Note>, id: RecordId, caller: UserId, body: Body)
    requires Stored(s)
    requires body.user.None?
    requires Update(s, id, caller, body).response.Ok?
    ensures Update(s, id, caller, body).response.value.owner == caller == s.docs[id].owner
    ensures forall k :: k in s.docs && k != id ==> Update(s, id, caller, body).store.docs[k] == s.docs[k]
  {
  }

  /** A body with only `isFavorite` changes that flag and the update time and
      nothing else. */
  lemma UpdateFavoriteOnly(s: Store.Store<Note>, id: RecordId, caller: UserId, fav: bool)
    requires Stored(s)
    requires Store.Owns(s, id, caller)
    ensures
      var r := Update(s, id, caller, EmptyBody().(isFavorite := Some(fav)));
      var prev := s.docs[id];
      && r.response.Ok?
      && r.response.value == prev.(fields := prev.fields.(isFavorite := fav), updatedAt := r.response.value.updatedAt)
  {
  }

  /** The body is applied without an allow-list, so a `user` field moves the
      note to another owner, after which its creator gets 404. */
  lemma UpdateRewritesOwner()
    ensures
      var s := Store.Store(map[0 := Store.Doc(0, "alice", Note("A", "B", [], false), 0, 0)], 1, 1);
      var r := Update(s, 0, "alice", EmptyBody().(user := Some("bob")));
      && r.response.Ok? && r.response.value.owner == "bob"
      && GetOne(r.store, 0, "alice") == NotFound
      && GetOne(r.store, 0, "bob").Ok?
  {
  }

  /** Deleting the same identifier twice: the first call succeeds, the second
      finds nothing. */
  lemma DeleteTwice(s: Store.Store<Note>, id: RecordId, caller: UserId)
    requires Stored(s)
    requires Store.Owns(s, id, caller)
    ensures Delete(s, id, caller).response == Deleted(DeletedMessage)
    ensures Delete(Delete(s, id, caller).store, id, caller).response == NotFound
  {
  }

  /** Every stored record satisfies the schema: its required fields are
      non-empty and its tags are lower case, so lowering them again changes
      nothing. */
  lemma StoredSatisfiesSchema(s: Store.Store<Note>, id: RecordId)
    requires Stored(s)
    requires id in s.docs
    ensures s.docs[id].fields.title != "" && s.docs[id].fields.content != ""
    ensures LowerAll(s.docs[id].fields.tags) == s.docs[id].fields.tags
  {
    LowerAllFixedPoints(s.docs[id].fields.tags);
  }

  /** Text search sees the title and the content only: records that agree on those,
      on their owner and on their tags satisfy the same queries. */
  lemma TextSearchFields(q: Store.Query, d1: Store.Doc<Note>, d2: Store.Doc<Note>,
                         search: (seq<string>, string) -> bool)
    requires d1.owner == d2.owner && d1.fields.tags == d2.fields.tags
    requires Indexed(d1.fields) == Indexed(d2.fields)
    ensures Store.Matches(q, d1, TagsOf, Indexed, search) == Store.Matches(q, d2, TagsOf, Indexed, search)
  {
  }

  /** GET /notes/:id by `caller`. */
  function GetOne(s: Store.Store<Note>, id: RecordId, caller: UserId): (r: Response<Store.Doc<Note>>)
    ensures r.Ok? || r.NotFound?
    ensures r.Ok? <==> Store.Owns(s, id, caller)
    ensures r.Ok? ==> r.value == s.docs[id] && r.value.owner == caller
  {
    Store.GetOne(s, id, caller)
  }

  /** DELETE /notes/:id by `caller`. */
  function Delete(s: Store.Store<Note>, id: RecordId, caller: UserId): (r: Store.Reply<Note>)
    requires Stored(s)
    ensures Stored(r.store)
    ensures r.response.Deleted? || r.response.NotFound?
    ensures r.response.Deleted? <==> Store.Owns(s, id, caller)
    ensures r.response.Deleted? ==> r.response.message == DeletedMessage && r.store.docs == s.docs - {id}
    ensures r.response.NotFound? ==> r.store == s
  {
    Store.Delete(s, id, caller, DeletedMessage)
  }

  /** GET /notes?q=…&tags=… by `caller`: exactly the caller's notes that pass
      the optional text and tag predicates, newest first. */
  method List(s: Store.Store<Note>, caller: UserId, q: Option<string>, tags: Option<string>,
              search: (seq<string>, string) -> bool) returns (r: seq<Store.Doc<Note>>)
    requires Store.Valid(s)
    ensures Store.NewestFirst(r)
    ensures multiset(r) ==
      multiset(Store.Selected(s, s.docs.Keys, ListQuery.BuildQuery(caller, q, tags), TagsOf, Indexed, search))
    ensures forall d :: d in r ==> d.owner == caller && d.id in s.docs && s.docs[d.id] == d
    ensures forall d :: d in r ==> Truthy(q) ==> search([d.fields.title, d.fields.content], q.value)
    ensures forall d :: d in r ==> Truthy(tags) ==>
      exists t :: t in d.fields.tags && t in ListQuery.TagFilter(tags.value)
    ensures forall id ::
              id in s.docs && Store.Matches(ListQuery.BuildQuery(caller, q, tags), s.docs[id], TagsOf, Indexed, search)
              ==> s.docs[id] in r
  {
    var query := ListQuery.BuildQuery(caller, q, tags);
    r := Store.List(s, query, TagsOf, Indexed, search);
  }
}

=== FILE: store.dfy ===
/** One collection of the record store, shared by both resource kinds: a map
    from identifier to stored document, plus the owner-scoped operations the
    route handlers issue against it (`findOne`, `findOneAndUpdate`,
    `findOneAndDelete` on `{_id, user}`, and `find(query).sort({createdAt: -1})`).
    `F` is the kind-specific part of a record. */
module Store {
  import opened Common

  /** A stored record: its identifier, owner, kind-specific fields and the two
      timestamps the schema's `timestamps` option maintains. */
  datatype Doc<F> = Doc(id: RecordId, owner: UserId, fields: F, createdAt: nat, updatedAt: nat)

  /** A collection: the documents by identifier, the next fresh identifier, and
      a counter standing for the clock (every mutation reads and advances it). */
  datatype Store<F> = Store(docs: map<RecordId, Doc<F>>, nextId: RecordId, clock: nat)

  /** The collection after an operation together with the handler's answer. */
  datatype Reply<F> = Reply(store: Store<F>, response: Response<Doc<F>>)

  /** Every document sits under its own identifier, identifiers below `nextId`
      are the only ones handed out, and timestamps lie in the past. */
  predicate Valid<F>(s: Store<F>) {
    forall id :: id in s.docs ==>
      && s.docs[id].id == id
      && id < s.nextId
      && s.docs[id].createdAt <= s.docs[id].updatedAt < s.clock
  }

  /** The guard of every single-record operation: the record exists AND belongs
      to the caller. */
  predicate Owns<F>(s: Store<F>, id: RecordId, user: UserId) {
    id in s.docs && s.docs[id].owner == user
  }

  /** The same collection with the record `id` absent. */
  function Without<F>(s: Store<F>, id: RecordId): (r: Store<F>)
    ensures id !in r.docs
    ensures forall k :: k in s.docs && k != id ==> k in r.docs && r.docs[k] == s.docs[k]
  {
    s.(docs := s.docs - {id})
  }

  /** `findOne({_id: id, user})`. */
  function FindOwned<F>(s: Store<F>, id: RecordId, user: UserId): (r: Option<Doc<F>>)
    ensures r.Some? <==> Owns(s, id, user)
    ensures r.Some? ==> r.value == s.docs[id] && r.value.owner == user
  {
    if id in s.docs && s.docs[id].owner == user then Some(s.docs[id]) else None
  }

  /** A record owned by someone else is indistinguishable from a missing one:
      the caller's lookup gives the same answer once it is removed. */
  lemma ForeignIsMissing<F>(s: Store<F>, id: RecordId, user: UserId)
    requires id in s.docs && s.docs[id].owner != user
    ensures FindOwned(s, id, user) == FindOwned(Without(s, id), id, user) == None
  {
  }

  /** The get-one handler. */
  function GetOne<F>(s: Store<F>, id: RecordId, user: UserId): (r: Response<Doc<F>>)
    ensures r.Ok? || r.NotFound?
    ensures r.Ok? <==> Owns(s, id, user)
    ensures r.Ok? ==> r.value == s.docs[id] && r.value.owner == user
  {
    match FindOwned(s, id, user)
    case Some(d) => Ok(d)
    case None => NotFound
  }

  /** Persist a new document owned by `owner`: fresh identifier, both
      timestamps set to the current tick, which is later than every timestamp
      already stored. */
  function Insert<F>(s: Store<F>, owner: UserId, fields: F): (r: (Store<F>, Doc<F>))
    requires Valid(s)
    ensures Valid(r.0)
    ensures r.1.id !in s.docs && r.0.docs == s.docs[r.1.id := r.1]
    ensures r.1.owner == owner && r.1.fields == fields
    ensures r.1.createdAt == r.1.updatedAt
    ensures forall k :: k in s.docs ==> s.docs[k].createdAt < r.1.createdAt
  {
    var d := Doc(s.nextId, owner, fields, s.clock, s.clock);
    (Store(s.docs[s.nextId := d], s.nextId + 1, s.clock + 1), d)
  }

  /** `findOneAndUpdate({_id: id, user}, body, {new: true})` once the body has
      been validated: on a match the owner becomes `newOwner` when the body
      carries one, the fields are merged, and `updatedAt` is refreshed; on no
      match nothing changes. */
  function UpdateOwned<F>(s: Store<F>, id: RecordId, user: UserId, newOwner: Option<UserId>,
                          merge: F -> F): (r: Reply<F>)
    requires Valid(s)
    ensures Valid(r.store)
    ensures r.response.Ok? || r.response.NotFound?
    ensures r.response.Ok? <==> Owns(s, id, user)
    ensures r.response.NotFound? ==> r.store == s
    ensures r.response.Ok? ==>
      var d := r.response.value;
      && d.id == id
      && d.owner == newOwner.GetOr(user)
      && d.fields == merge(s.docs[id].fields)
      && d.createdAt == s.docs[id].createdAt
      && d.updatedAt > s.docs[id].updatedAt
      && r.store.docs == s.docs[id := d]
  {
    match FindOwned(s, id, user)
    case None => Reply(s, NotFound)
    case Some(prev) =>
      var d := prev.(owner := newOwner.GetOr(prev.owner), fields := merge(prev.fields), updatedAt := s.clock);
      Reply(Store(s.docs[id := d], s.nextId, s.clock + 1), Ok(d))
  }

  /** `findOneAndDelete({_id: id, user})`: removes the record only when the
      caller owns it, answering with `message`; otherwise 404 and no change. */
  function Delete<F>(s: Store<F>, id: RecordId, user: UserId, message: string): (r: Reply<F>)
    ensures r.response.Deleted? || r.response.NotFound?
    ensures r.response.Deleted? <==> Owns(s, id, user)
    ensures r.response.Deleted? ==> r.response.message == message && r.store.docs == s.docs - {id}
    ensures r.response.NotFound? ==> r.store == s
    ensures Valid(s) ==> Valid(r.store)
  {
    match FindOwned(s, id, user)
    case None => Reply(s, NotFound)
    case Some(_) => Reply(Without(s, id), Deleted(message))
  }

  /** The filter handed to `find`: the owner is mandatory, the text and tag
      predicates are optional. */
  datatype Query = Query(owner: UserId, text: Option<string>, tags: Option<seq<string>>)

  /** Whether a document satisfies a query. `tagsOf` and `indexed` select the
      tag array and the text-indexed fields of a kind; `search` is the store's
      `$text` relevance match over those fields, left uninterpreted. A present
      tag predicate is `$in`: at least one of the record's tags is listed. */
  function Matches<F>(q: Query, d: Doc<F>, tagsOf: F -> seq<string>, indexed: F -> seq<string>,
                      search: (seq<string>, string) -> bool): (r: bool)
    ensures r ==> d.owner == q.owner
    ensures q.text.None? && q.tags.None? ==> (r <==> d.owner == q.owner)
    ensures q.tags == Some([]) ==> !r
    ensures |tagsOf(d.fields)| == 0 && q.tags.Some? ==> !r
  {
    && d.owner == q.owner
    && (q.text.Some? ==> search(indexed(d.fields), q.text.value))
    && (q.tags.Some? ==> exists t :: t in tagsOf(d.fields) && t in q.tags.value)
  }

  /** Newest first: creation times never increase along the sequence. */
  predicate NewestFirst<F>(ds: seq<Doc<F>>) {
    forall i, j :: 0 <= i < j < |ds| ==> ds[i].createdAt >= ds[j].createdAt
  }

  /** The documents among `keys` that satisfy the query. */
  ghost function Selected<F>(s: Store<F>, keys: set<RecordId>, q: Query, tagsOf: F -> seq<string>,
                             indexed: F -> seq<string>, search: (seq<string>, string) -> bool): set<Doc<F>>
  {
    set id | id in keys && id in s.docs && Matches(q, s.docs[id], tagsOf, indexed, search) :: s.docs[id]
  }

  /** Prepending a document at least as new as every element keeps the order. */
  lemma ConsNewest<F>(x: Doc<F>, ds: seq<Doc<F>>)
    requires NewestFirst(ds)
    requires forall k :: 0 <= k < |ds| ==> ds[k].createdAt <= x.createdAt
    ensures NewestFirst([x] + ds)
  {
    var r := [x] + ds;
    forall i, j | 0 <= i < j < |r|
      ensures r[i].createdAt >= r[j].createdAt
    {
      if i > 0 {
        assert r[i] == ds[i - 1] && r[j] == ds[j - 1];
      }
    }
  }

  /** Place `d` into a newest-first sequence. */
  function InsertNewest<F>(d: Doc<F>, ds: seq<Doc<F>>): (r: seq<Doc<F>>)
    requires NewestFirst(ds)
    ensures NewestFirst(r)
    ensures multiset(r) == multiset(ds) + multiset{d}
    ensures forall x :: x in r ==> x in ds || x == d
  {
    if |ds| == 0 || ds[0].createdAt <= d.createdAt then
      ConsNewest(d, ds);
      [d] + ds
    else
      var rest := InsertNewest(d, ds[1..]);
      assert ds == [ds[0]] + ds[1..];
      assert forall k :: 0 <= k < |rest| ==> rest[k].createdAt <= ds[0].createdAt by {
        forall k | 0 <= k < |rest|
          ensures rest[k].createdAt <= ds[0].createdAt
        {
          assert rest[k] in rest;
        }
      }
      ConsNewest(ds[0], rest);
      [ds[0]] + rest
  }

  /** Taking one more key into account adds its document exactly when it
      matches, and a document not yet taken into account is not selected. */
  lemma SelectedStep<F>(s: Store<F>, done: set<RecordId>, id: RecordId, q: Query, tagsOf: F -> seq<string>,
                        indexed: F -> seq<string>, search: (seq<string>, string) -> bool)
    requires Valid(s) && id in s.docs && id !in done
    ensures var before := Selected(s, done, q, tagsOf, indexed, search);
      && s.docs[id] !in before
      && Selected(s, done + {id}, q, tagsOf, indexed, search) ==
         if Matches(q, s.docs[id], tagsOf, indexed, search) then before + {s.docs[id]} else before
  {
  }

  /** A sequence holding exactly the selection holds the matching documents of
      the store and nothing else. */
  lemma SelectionMembers<F>(s: Store<F>, r: seq<Doc<F>>, q: Query, tagsOf: F -> seq<string>,
                            indexed: F -> seq<string>, search: (seq<string>, string) -> bool)
    requires Valid(s)
    requires multiset(r) == multiset(Selected(s, s.docs.Keys, q, tagsOf, indexed, search))
    ensures forall d :: d in r ==> Matches(q, d, tagsOf, indexed, search) && d.id in s.docs && s.docs[d.id] == d
    ensures forall id :: id in s.docs && Matches(q, s.docs[id], tagsOf, indexed, search) ==> s.docs[id] in r
  {
    forall d | d in r
      ensures Matches(q, d, tagsOf, indexed, search) && d.id in s.docs && s.docs[d.id] == d
    {
      assert d in multiset(r);
    }
    forall id | id in s.docs && Matches(q, s.docs[id], tagsOf, indexed, search)
      ensures s.docs[id] in r
    {
      assert s.docs[id] in Selected(s, s.docs.Keys, q, tagsOf, indexed, search);
      assert s.docs[id] in multiset(r);
    }
  }

  /** `find(query).sort({createdAt: -1})`: exactly the matching documents,
      each once, newest first. */
  method List<F>(s: Store<F>, q: Query, tagsOf: F -> seq<string>, indexed: F -> seq<string>,
                 search: (seq<string>, string) -> bool) returns (r: seq<Doc<F>>)
    requires Valid(s)
    ensures NewestFirst(r)
    ensures multiset(r) == multiset(Selected(s, s.docs.Keys, q, tagsOf, indexed, search))
    ensures forall d :: d in r ==> Matches(q, d, tagsOf, indexed, search) && d.id in s.docs && s.docs[d.id] == d
    ensures forall id :: id in s.docs && Matches(q, s.docs[id], tagsOf, indexed, search) ==> s.docs[id] in r
  {
    r := [];
    var todo := s.docs.Keys;
    ghost var done: set<RecordId> := {};
    while todo != {}
      invariant todo <= s.docs.Keys && done == s.docs.Keys - todo
      invariant NewestFirst(r)
      invariant multiset(r) == multiset(Selected(s, done, q, tagsOf, indexed, search))
      decreases todo
    {
      var id :| id in todo;
      var d := s.docs[id];
      ghost var before := Selected(s, done, q, tagsOf, indexed, search);
      SelectedStep(s, done, id, q, tagsOf, indexed, search);
      if Matches(q, d, tagsOf, indexed, search) {
        assert multiset(before + {d}) == multiset(before) + multiset{d};
        r := InsertNewest(d, r);
      }
      todo := todo - {id};
      done := done + {id};
    }
    SelectionMembers(s, r, q, tagsOf, indexed, search);
  }
}

=== FILE: text.dfy ===
/** The JavaScript string operations the handlers and the schemas rely on:
    `String.prototype.split` on one character, `trim`, and `toLowerCase`
    (restricted to the ASCII letters). */
module Text {

  /** The characters `String.prototype.trim` removes: the ECMAScript
      WhiteSpace and LineTerminator code points. */
  predicate IsSpace(c: char) {
    || c == '\t' || c == '\n' || c == '\U{000B}' || c == '\U{000C}' || c == '\r'
    || c == ' ' || c == '\U{00A0}' || c == '\U{1680}'
    || ('\U{2000}' <= c <= '\U{200A}')
    || c == '\U{2028}' || c == '\U{2029}' || c == '\U{202F}' || c == '\U{205F}'
    || c == '\U{3000}' || c == '\U{FEFF}'
  }

  predicate AllSpace(s: string) {
    forall i :: 0 <= i < |s| ==> IsSpace(s[i])
  }

  /** Neither end of `t` is white space. */
  predicate IsTrimmed(t: string) {
    t == [] || (!IsSpace(t[0]) && !IsSpace(t[|t| - 1]))
  }

  /** `r` is `s` with white space only removed from its two ends, the left part
      being `i` characters long. */
  predicate StripsTo(s: string, r: string, i: int) {
    && 0 <= i && i + |r| <= |s|
    && s[i..i + |r|] == r
    && AllSpace(s[..i])
    && AllSpace(s[i + |r|..])
  }

  function TrimStart(s: string): (r: string)
    ensures |r| <= |s| && r == s[|s| - |r|..]
    ensures AllSpace(s[..|s| - |r|])
    ensures r == [] || !IsSpace(r[0])
  {
    if |s| > 0 && IsSpace(s[0]) then
      var r := TrimStart(s[1..]);
      assert s[..|s| - |r|] == [s[0]] + s[1..][..|s| - 1 - |r|];
      r
    else s
  }

  function TrimEnd(s: string): (r: string)
    ensures |r| <= |s| && r == s[..|r|]
    ensures AllSpace(s[|r|..])
    ensures r == [] || !IsSpace(r[|r| - 1])
  {
    if |s| > 0 && IsSpace(s[|s| - 1]) then
      var r := TrimEnd(s[..|s| - 1]);
      assert s[|r|..] == s[..|s| - 1][|r|..] + [s[|s| - 1]];
      r
    else s
  }

  /** JavaScript `s.trim()`. */
  function Trim(s: string): (r: string)
    ensures IsTrimmed(r)
    ensures exists i :: StripsTo(s, r, i)
  {
    var a := TrimStart(s);
    var r := TrimEnd(a);
    StripsBoth(s, a, r);
    r
  }

  /** Stripping a white-space prefix and then a white-space suffix strips
      white space from both ends. */
  lemma StripsBoth(s: string, a: string, r: string)
    requires |a| <= |s| && a == s[|s| - |a|..] && AllSpace(s[..|s| - |a|])
    requires |r| <= |a| && r == a[..|r|] && AllSpace(a[|r|..])
    ensures StripsTo(s, r, |s| - |a|)
  {
    var i := |s| - |a|;
    assert s[i..i + |r|] == a[..|r|];
    assert s[i + |r|..] == a[|r|..];
  }

  lemma TrimOfTrimmed(t: string)
    requires IsTrimmed(t)
    ensures Trim(t) == t
  {
    assert TrimStart(t) == t;
    assert TrimEnd(t) == t;
  }

  /** Trimming twice is trimming once. */
  lemma TrimIdempotent(s: string)
    ensures Trim(Trim(s)) == Trim(s)
  {
    TrimOfTrimmed(Trim(s));
  }

  /** JavaScript `c.toLowerCase()` on one character, ASCII letters only. */
  function LowerChar(c: char): char {
    if 'A' <= c <= 'Z' then (c as int + 32) as char else c
  }

  predicate IsUpper(c: char) {
    'A' <= c <= 'Z'
  }

  /** No upper-case letter occurs in `s`. */
  predicate IsLower(s: string) {
    forall i :: 0 <= i < |s| ==> !IsUpper(s[i])
  }

  /** JavaScript `s.toLowerCase()`, and the Mongoose `lowercase: true` setter.
      Lowering maps letters only: the result keeps the length, has no
      capitals, moves each capital 32 code points up to its small letter,
      and leaves every other character where it was. */
  function Lower(s: string): (r: string)
    ensures |r| == |s| && IsLower(r)
    ensures forall i :: 0 <= i < |s| && IsUpper(s[i]) ==> r[i] as int == s[i] as int + 32
    ensures forall i :: 0 <= i < |s| && !IsUpper(s[i]) ==> r[i] == s[i]
  {
    seq(|s|, i requires 0 <= i < |s| => LowerChar(s[i]))
  }

  /** A string is left alone by lowering exactly when it is already lower case. */
  lemma LowerFixedPoints(s: string)
    ensures Lower(s) == s <==> IsLower(s)
  {
    if Lower(s) != s {
      var i :| 0 <= i < |s| && Lower(s)[i] != s[i];
      assert IsUpper(s[i]);
    }
  }

  lemma LowerIdempotent(s: string)
    ensures Lower(Lower(s)) == Lower(s)
  {
    LowerFixedPoints(Lower(s));
  }

  /** Lowering neither creates nor removes white space, so it keeps a string
      trimmed. */
  lemma LowerKeepsTrimmed(t: string)
    requires IsTrimmed(t)
    ensures IsTrimmed(Lower(t))
  {
  }

  /** Lower-case every element, as the schema setter does on a tag array. */
  function LowerAll(ts: seq<string>): (r: seq<string>)
    ensures |r| == |ts|
    ensures forall i :: 0 <= i < |ts| ==> r[i] == Lower(ts[i])
    ensures AllLower(r)
  {
    seq(|ts|, i requires 0 <= i < |ts| => Lower(ts[i]))
  }

  predicate AllLower(ts: seq<string>) {
    forall i :: 0 <= i < |ts| ==> IsLower(ts[i])
  }

  /** A tag array that is already lower case is stored unchanged. */
  lemma LowerAllFixedPoints(ts: seq<string>)
    ensures LowerAll(ts) == ts <==> AllLower(ts)
  {
    if AllLower(ts) {
      forall i | 0 <= i < |ts|
        ensures LowerAll(ts)[i] == ts[i]
      {
        LowerFixedPoints(ts[i]);
      }
    }
  }

  /** The number of occurrences of `c` in `s`. */
  function Count(s: string, c: char): nat {
    if |s| == 0 then 0 else (if s[0] == c then 1 else 0) + Count(s[1..], c)
  }

  /** The inverse of `Split`: the pieces glued back with `c` between them. */
  function Join(ps: seq<string>, c: char): string {
    if |ps| == 0 then ""
    else if |ps| == 1 then ps[0]
    else ps[0] + [c] + Join(ps[1..], c)
  }

  /** JavaScript `s.split(c)` for a one-character separator: every separator
      ends a piece, so empty pieces are kept and the empty string yields one
      empty piece. */
  function Split(s: string, c: char): (r: seq<string>)
    ensures |r| >= 1
    ensures forall i :: 0 <= i < |r| ==> c !in r[i]
    ensures Join(r, c) == s
  {
    if |s| == 0 then [""]
    else
      var rest := Split(s[1..], c);
      if s[0] == c then
        assert ([""] + rest)[1..] == rest;
        [""] + rest
      else
        var r := [[s[0]] + rest[0]] + rest[1..];
        assert r[1..] == rest[1..];
        assert s == [s[0]] + s[1..];
        r
  }

  /** Splitting yields one more piece than there are separators. */
  lemma {:induction false} SplitCount(s: string, c: char)
    ensures |Split(s, c)| == Count(s, c) + 1
  {
    if |s| > 0 {
      SplitCount(s[1..], c);
    }
  }

  lemma {:induction false} SplitNoSeparator(p: string, c: char)
    requires c !in p
    ensures Split(p, c) == [p]
  {
    if |p| > 0 {
      SplitNoSeparator(p[1..], c);
      assert [p[0]] + p[1..] == p;
    }
  }

  lemma {:induction false} SplitFirstPiece(p: string, c: char, t: string)
    requires c !in p
    ensures Split(p + [c] + t, c) == [p] + Split(t, c)
  {
    var s := p + [c] + t;
    if |p| == 0 {
      assert s[1..] == t;
    } else {
      assert s[1..] == p[1..] + [c] + t;
      SplitFirstPiece(p[1..], c, t);
      assert [p[0]] + p[1..] == p;
    }
  }

  /** Splitting the joined pieces gives the pieces back, provided none of them
      holds the separator. */
  lemma {:induction false} SplitJoin(ps: seq<string>, c: char)
    requires |ps| >= 1
    requires forall i :: 0 <= i < |ps| ==> c !in ps[i]
    ensures Split(Join(ps, c), c) == ps
  {
    if |ps| == 1 {
      SplitNoSeparator(ps[0], c);
    } else {
      SplitJoin(ps[1..], c);
      SplitFirstPiece(ps[0], c, Join(ps[1..], c));
      assert [ps[0]] + ps[1..] == ps;
    }
  }
}
